=== FILE: README.md ===
# ARMA/GARCH training service — orchestration and normalisation model

A Dafny model of the core of a small Python service that fits an ARMA(1,1)
and a GARCH(1,1) model per financial symbol and stores or returns the fitted
parameters. The model covers:

- **the batch loops** (`training_service.py`): for each symbol, fetch the
  prices, skip empty or short lists (fewer than 10 prices), call the
  trainer, keep the symbol when its result reports `success`. The
  synchronous variant returns the successful results tagged with their
  symbol. The background variant saves them instead. Neither aborts the batch.
  The three endpoints' guards are modelled too: 400 on an empty symbol list,
  404 when no metrics are stored.
- **the storage adapters** (`database_retrieval.py`): the first-truthy
  cascades that resolve `ar_coeff`, `ma_coeff` and `garch_volatility` from
  flattened or nested metric dictionaries; the five-column row appended to
  the metrics table; the positional mapping of the newest row back into a
  dictionary; and the rule that every storage failure is swallowed.
- **the trainer's result shaping** (`financial_models.py`): the
  return-series length gate, the conversion of estimator exceptions into
  `{error, success: False}`, and the fixed eight-key success dictionary
  with its `.get` fallbacks for parameter names.

Modules follow the source files:

- `Values` (`values.dfy`) holds Python values with their truthiness, `dict.get`,
  and two reference readings of lookup chains. `FirstTruthy` is the
  `a or b or … or 0.0` reading. `FirstPresent` is the nested
  `.get(k, default)` reading.
- `FinancialModels` (`financial_models.dfy`) models the trainer.
- `DatabaseRetrieval` (`database_retrieval.dfy`) models the adapters.
- `TrainingService` (`training_service.dfy`) models the loops and
  endpoints. It is generic over a price source `Symbol -> seq<real>` and a
  trainer `seq<real> -> map<string, Value>`. Its last section plugs in the
  modelled trainer and the modelled price query.

The store is an append-only sequence of `Record(timestamp, symbol, ar, ma,
volatility)`. "Latest" means a record of the symbol with the greatest
timestamp. The clock reading of each save is a parameter, and so is
whether each insert or query succeeds.

A consequence that the model proves (`TenPricesAlwaysOmitted`): exactly ten
prices pass the loops' gate but yield at most nine returns. Such a symbol
always reaches the trainer, always gets "Not enough return observations to
train models", and is never in the output.

Details of the code the model keeps:

- The return series has *at most* `len(prices) - 1` elements, not always
  that many. `dropna` also removes NaN log-returns: a sign change between
  consecutive prices, `0/0`, or a negative price after a zero one. With
  positive prices the length is exactly `len(prices) - 1`
  (`PositivePricesKeepAllReturns`).
- A price list that passes the loops' gate but is too short for the trainer
  ends as a training failure (`TrainingFailed`), not as a skip.
- Only the storage path applies the falsy cascades, and only to three fields.
  `const`, `omega`, `alpha` and `beta` are resolved by the trainer with `.get`
  defaults, where a present 0.0 is kept. The synchronous endpoint returns
  the trainer's dictionary as it is, with `symbol` added.
- A nested group that is not a dict makes `.get` raise inside
  `save_model_results` when a cascade with a falsy flattened value reaches
  it. The raise is swallowed and nothing is saved. With truthy flattened
  values the group is never consulted and the save goes ahead.

## Model

| member | source | states |
|---|---|---|
| FinancialModels.ReturnCount | financial_models.py:17-18 | the return series after `shift`/`dropna` is empty for at most one price and never longer than `len(prices) - 1` |
| FinancialModels.PositivePricesKeepAllReturns | financial_models.py:17-18 | with strictly positive prices the return series has exactly `len(prices) - 1` elements |
| FinancialModels.TrainAndExtractParams | financial_models.py:10-72 | success holds exactly when there are at least 10 returns and both estimators fit; a success has exactly the eight keys with `success` true and numeric parameters; a failure has exactly `error` (a string) and `success` false; too few returns gives the fixed "Not enough return observations" failure |
| FinancialModels.EstimatorErrorBecomesFailure | financial_models.py:40-72 | an exception from the ARMA fit, or from the GARCH fit after a good ARMA fit, becomes `{error: message, success: False}` with that message |
| FinancialModels.ParameterFallbacks | financial_models.py:45-67 | each parameter is the value under the first present name among `ar.L1`, `ma.L1`, `const`, `omega`, `alpha[1]`/`alpha`, `beta[1]`/`beta`, else 0; a present 0.0 is kept; `garch_volatility` is the last conditional volatility |
| FinancialModels.AtMostTenPricesFail | financial_models.py:16-39 | ten prices or fewer always give the "Not enough return observations" failure |
| FinancialModels.PositivePricesTrain | financial_models.py:16-69 | eleven or more positive prices with both estimators fitting always train successfully |
| DatabaseRetrieval.FetchPriceHistory | database_retrieval.py:17-31 | a failing price query reads as an empty price list; otherwise its prices are returned unchanged |
| DatabaseRetrieval.Cascade | database_retrieval.py:42-62 | a resolved value is truthy or 0.0; a truthy flattened value wins outright; the cascade raises exactly when the flattened value is falsy and the nested group is not a dict |
| DatabaseRetrieval.Normalize | database_retrieval.py:41-62 | normalisation raises exactly when a falsy flattened value sends a cascade to a group that is not a dict; otherwise the three values are the first truthy of `ar_coeff`/`arma.ar_coef`/`arma.ar_coeff`, of `ma_coeff`/`arma.ma_coef`/`arma.ma_coeff` and of `garch_volatility`/`garch.last_volatility`/`garch.garch_volatility`, else 0.0, with a non-dict group read as `{}` since it is never reached |
| DatabaseRetrieval.ResolvedCascade | database_retrieval.py:42-62 | whatever the group holds, a cascade that does not raise equals the first truthy of its flattened key and its two nested keys (a non-dict group read as `{}`), else 0.0 |
| DatabaseRetrieval.CascadeIsFirstTruthy | database_retrieval.py:45-62 | with a dict (or absent) group a cascade equals the first truthy of flattened key, first nested key, second nested key, else 0.0 |
| DatabaseRetrieval.NestedEqualsFlat | database_retrieval.py:41-62 | input carrying the values only in the nested groups, under either nested name, resolves to the same three values as the flattened-only input, which resolves to the values themselves |
| DatabaseRetrieval.ZeroFlatIsOverridden | database_retrieval.py:45-50 | a flattened `ar_coeff` of 0.0 counts as absent, so a truthy nested `ar_coef` is used |
| DatabaseRetrieval.SaveModelResults | database_retrieval.py:34-81 | the store is only appended to, by at most one row; a row is added exactly when the cascades do not raise and the insert succeeds; that row has the five columns in order timestamp, symbol, ar, ma, volatility, with the given symbol and clock reading |
| DatabaseRetrieval.LatestRecord | database_retrieval.py:90-97 | none exactly when the symbol has no record; otherwise a stored record of that symbol whose timestamp is the maximum among its records |
| DatabaseRetrieval.GetLatestMetrics | database_retrieval.py:84-112 | `None` exactly when the query fails or the symbol has no record; otherwise the dictionary of a record of that symbol with maximal timestamp, with `symbol` the argument |
| DatabaseRetrieval.LatestMetricsNonEmpty | database_retrieval.py:99-109 | a found result has exactly the keys symbol, ar_coeff, ma_coeff, garch_volatility, calculated_at and the queried symbol |
| DatabaseRetrieval.SaveThenGetLatest | database_retrieval.py:65-109 | after a successful save whose clock reading is not older than the symbol's records, the next read returns the saved values with `calculated_at` the save time (at an equal timestamp, under the later-appended tie-break) |
| DatabaseRetrieval.SaveIsolatesSymbols | database_retrieval.py:73-97 | a save for one symbol never changes another symbol's latest metrics |
| TrainingService.ProcessSymbol | training_service.py:30-50 | no data and fewer than 10 prices are skipped; the trainer is reached exactly when there are at least 10 prices; the symbol is kept exactly when the trainer's result reports success |
| TrainingService.SyncBatch | training_service.py:55-79 | never more results than input symbols |
| TrainingService.SuccessIndices | training_service.py:62-76 | strictly ascending positions, each inside the input |
| TrainingService.SuccessIndicesExact | training_service.py:62-76 | a position is recorded exactly when its symbol passes the gate and its training reports success |
| TrainingService.SyncBatchIsOrderedSubsequence | training_service.py:60-79 | the synchronous result is, in input order, the trainer result of each successful position tagged with that position's symbol |
| TrainingService.SyncRecordsReportSuccess | training_service.py:69-74 | every synchronous record reports success, and its `symbol` is the input symbol it was produced for |
| TrainingService.SyncBatchCount | training_service.py:62-74 | a successful symbol appears once per occurrence in the input (no de-duplication); any other symbol never appears |
| TrainingService.InsufficientDataExcluded | training_service.py:63-67 | a symbol with fewer than 10 prices never reaches the trainer and is absent from the result |
| TrainingService.SyncBatchConcat | training_service.py:62-76 | processing continues after any outcome: the result for a concatenated input is the concatenation of the results |
| TrainingService.ProcessBatchSync | training_service.py:55-79 | the loop computes exactly the synchronous batch result |
| TrainingService.BackgroundBatch | training_service.py:23-52 | the background loop makes at most one save call per input symbol |
| TrainingService.BackgroundSavesSuccesses | training_service.py:30-50 | the save calls are exactly the successful positions, once each and in input order, each with its symbol and its trainer result |
| TrainingService.SyncMatchesBackground | training_service.py:23-79 | the synchronous result is the background save calls with the symbol written in |
| TrainingService.LandedIndices | database_retrieval.py:38-81 | ascending positions of save calls, each one whose cascades do not raise and whose insert succeeds |
| TrainingService.LandedIndicesExact | database_retrieval.py:38-81 | a save call's position is recorded exactly when that call appends a row |
| TrainingService.PersistAll | training_service.py:44-48 | running the save calls keeps the old rows and appends, in call order, exactly one row per landing call: its clock reading, its symbol and its three resolved values |
| TrainingService.AllLandedIndices | database_retrieval.py:38-81 | when every call lands, every position is a landing position, in order |
| TrainingService.EveryCallLands | training_service.py:44-48 | when every call normalises and every insert succeeds, the store grows by one row per call and row `k` after the old rows is call `k`'s record |
| TrainingService.BackgroundRunStoresTrainedParams | training_service.py:30-48 | a background run with the service's trainer and working inserts stores one row per successfully trained symbol, in input order, holding the trainer's `ar_coeff`, `ma_coeff` and `garch_volatility` unchanged |
| TrainingService.TriggerTrainingSync | training_service.py:82-95 | an empty list gives exactly the 400 "No symbols provided" error; otherwise "Processing complete" with the batch result |
| TrainingService.TriggerTraining | training_service.py:98-113 | an empty list gives the 400 error and schedules nothing; otherwise the whole list is scheduled and the answer counts it |
| TrainingService.GetModelResults | training_service.py:116-129 | 404 with the symbol in the detail exactly when the latest-metrics lookup yields nothing; otherwise the data with status "success" |
| TrainingService.FailedFetchIsNoData | training_service.py:31-35 | a failing price query makes the symbol a no-data skip |
| TrainingService.TenPricesAlwaysOmitted | training_service.py:62-76 | exactly ten prices pass the gate, reach the trainer, fail with "Not enough return observations", and are omitted |
| TrainingService.SyncResultsShape | training_service.py:69-74 | each synchronous result from the real trainer has the eight success keys plus `symbol`, with `success` true |
| TrainingService.TrainedResultNormalizes | database_retrieval.py:41-62 | saving a trainer success dictionary stores its flattened ar, ma and volatility values unchanged |

## Left out

- FastAPI routing, pydantic validation of the request body, uvicorn, and the
  execution of `BackgroundTasks`. These are framework plumbing.
  `TriggerTraining` only returns the batch it schedules. Running that batch
  is `BackgroundBatch` followed by `PersistAll`.
- The ClickHouse client and the SQL text are left out. The price query is an
  abstract `Symbol -> Option<seq<real>>`. Connection settings from the
  environment are left out too. `datetime.now()` is a clock parameter
  holding an integer instant.
- The log-return arithmetic and the ARIMA and GARCH estimators are abstract.
  Their numerics are floating point and live inside libraries. Only the
  length of the return series and the estimators' parameter maps (or their
  exception messages) are modelled.
- NaN and infinite prices, and signed zero: prices are Dafny reals.
- Python's `float(...)` conversion of each parameter. The estimators'
  parameters are reals already.
- `isinstance(metrics, dict)` being false in `save_model_results`: metrics
  are typed as a dictionary. In Python a non-dict would raise at
  `metrics.get`, and that raise would be swallowed like any other.
- DatabaseRetrieval.SaveModelResults: a value that the metrics table
  rejects, such as a truthy string in a float column, is not classified.
  Its effect is part of the `insertOk` parameter.
- DatabaseRetrieval.LatestRecord: among records with equal timestamps, the
  model picks the later-appended one. `ORDER BY timestamp DESC LIMIT 1` does
  not specify which one is returned.
- DatabaseRetrieval.SaveThenGetLatest: when the save's clock reading equals
  a stored timestamp of the symbol, the round trip rests on that
  later-appended tie-break. The database promises it only for a strictly
  newer clock reading.
- The background loop's `results_summary` list is left out. Only its length
  is logged, and the loop returns nothing.
- Logging and the error strings written to the log.
- `scheduler_client.py` is not part of this model. It is CSV and JSON file
  I/O around a blocking HTTP call.
- Idempotence of repeated reads is left out as a separate statement. It
  holds by construction, because `GetLatestMetrics` is a function of the
  store.

=== FILE: database_retrieval.dfy ===
/** The storage adapters of database_retrieval.py over an abstract store:
    `fetch_price_history` collapses a failed query to an empty list,
    `save_model_results` resolves three parameters through first-truthy
    cascades and appends one five-column row, and `get_latest_metrics` maps
    the newest row of a symbol positionally into a dictionary. The store is an
    append-only sequence of records; the SQL client, the clock and connection
    failures are parameters. */
module DatabaseRetrieval {
  import opened Values

  /** The price-history query for a symbol: its prices in ascending timestamp
      order, or `None` when the query raised. */
  type PriceQuery = Symbol -> Option<seq<real>>

  /** `fetch_price_history`: a raising query reads as "no prices". */
  function FetchPriceHistory(query: PriceQuery, symbol: Symbol): (prices: seq<real>)
    ensures query(symbol).None? ==> prices == []
    ensures query(symbol).Some? ==> prices == query(symbol).value
  {
    match query(symbol)
    case None => []
    case Some(ps) => ps
  }

  // ---------------------------------------------------------------------------
  // Normalisation cascade of save_model_results

  /** `container.get(key)`, which raises unless the container is a dict
      (`None` stands for the raise). */
  function DictLookup(container: Value, key: string): Option<Value> {
    match container
    case Dict(d) => Some(Get(d, key))
    case _ => None
  }

  /** One cascade `metrics.get(flat) or group.get(first) or group.get(second) or 0.0`,
      where `group = metrics.get(groupKey, {})`. Python's `or` short-circuits,
      so the group is only consulted when the flattened value is falsy; a
      group that is not a dict then raises (`None`). */
  function Cascade(metrics: map<string, Value>, flat: string, groupKey: string,
                   first: string, second: string): (r: Option<Value>)
    ensures r.Some? ==> Truthy(r.value) || r.value == Num(0.0)
    ensures Truthy(Get(metrics, flat)) ==> r == Some(Get(metrics, flat))
    ensures r.None? <==> !Truthy(Get(metrics, flat)) && !GetOr(metrics, groupKey, Dict(map[])).Dict?
  {
    var group := GetOr(metrics, groupKey, Dict(map[]));
    var v0 := Get(metrics, flat);
    if Truthy(v0) then Some(v0)
    else
      match DictLookup(group, first)
      case None => None
      case Some(v1) =>
        var v01 := Or(v0, v1);
        if Truthy(v01) then Some(v01)
        else
          match DictLookup(group, second)
          case None => None
          case Some(v2) => Some(Or(Or(v01, v2), Num(0.0)))
  }

  /** The three resolved parameters of a metrics dictionary. */
  datatype Normalized = Normalized(ar: Value, ma: Value, volatility: Value)

  function ArCascade(metrics: map<string, Value>): Option<Value> {
    Cascade(metrics, "ar_coeff", "arma", "ar_coef", "ar_coeff")
  }

  function MaCascade(metrics: map<string, Value>): Option<Value> {
    Cascade(metrics, "ma_coeff", "arma", "ma_coef", "ma_coeff")
  }

  function VolatilityCascade(metrics: map<string, Value>): Option<Value> {
    Cascade(metrics, "garch_volatility", "garch", "last_volatility", "garch_volatility")
  }

  /** The dictionary a cascade's group stands for: the group itself when it is
      a dict (an absent group defaults to `{}`), otherwise `{}`. A cascade that
      yields a value never consulted a non-dict group, so reading it as `{}`
      loses nothing. */
  function GroupDict(metrics: map<string, Value>, groupKey: string): map<string, Value> {
    match GetOr(metrics, groupKey, Dict(map[]))
    case Dict(d) => d
    case _ => map[]
  }

  /** Whether one of the three cascades raises: its flattened value is falsy
      and its group is present but not a dict. */
  predicate CascadesRaise(metrics: map<string, Value>) {
    var arma := GetOr(metrics, "arma", Dict(map[]));
    var garch := GetOr(metrics, "garch", Dict(map[]));
    || (!Truthy(Get(metrics, "ar_coeff")) && !arma.Dict?)
    || (!Truthy(Get(metrics, "ma_coeff")) && !arma.Dict?)
    || (!Truthy(Get(metrics, "garch_volatility")) && !garch.Dict?)
  }

  /** All three cascades of `save_model_results`; a raise in any of them aborts
      the save. */
  function Normalize(metrics: map<string, Value>): (r: Option<Normalized>)
    ensures r.None? <==> CascadesRaise(metrics)
    ensures var arma := GroupDict(metrics, "arma");
      var garch := GroupDict(metrics, "garch");
      r.Some? ==>
        r == Some(Normalized(
          FirstTruthy([Get(metrics, "ar_coeff"), Get(arma, "ar_coef"), Get(arma, "ar_coeff")]),
          FirstTruthy([Get(metrics, "ma_coeff"), Get(arma, "ma_coef"), Get(arma, "ma_coeff")]),
          FirstTruthy([Get(metrics, "garch_volatility"), Get(garch, "last_volatility"),
                       Get(garch, "garch_volatility")])))
  {
    ResolvedCascade(metrics, "ar_coeff", "arma", "ar_coef", "ar_coeff");
    ResolvedCascade(metrics, "ma_coeff", "arma", "ma_coef", "ma_coeff");
    ResolvedCascade(metrics, "garch_volatility", "garch", "last_volatility", "garch_volatility");
    match (ArCascade(metrics), MaCascade(metrics), VolatilityCascade(metrics))
    case (Some(ar), Some(ma), Some(vol)) => Some(Normalized(ar, ma, vol))
    case _ => None
  }

  /** Whatever the group holds, a cascade that does not raise resolves to the
      first truthy of its three candidates, else 0.0, with a non-dict group
      read as `{}`: such a group is only reached after a falsy flattened value,
      and then the cascade raises. */
  lemma ResolvedCascade(metrics: map<string, Value>, flat: string, groupKey: string,
                        first: string, second: string)
    ensures var d := GroupDict(metrics, groupKey);
      Cascade(metrics, flat, groupKey, first, second).Some? ==>
        Cascade(metrics, flat, groupKey, first, second).value
          == FirstTruthy([Get(metrics, flat), Get(d, first), Get(d, second)])
  {
    if GetOr(metrics, groupKey, Dict(map[])).Dict? {
      CascadeIsFirstTruthy(metrics, flat, groupKey, first, second);
    } else {
      var d := GroupDict(metrics, groupKey);
      var cs := [Get(metrics, flat), Get(d, first), Get(d, second)];
      assert Truthy(cs[0]) ==> FirstTruthy(cs) == cs[0];
    }
  }

  /** When the group is a dict (or absent), a cascade is the first truthy of its
      three candidates, else 0.0. */
  lemma CascadeIsFirstTruthy(metrics: map<string, Value>, flat: string, groupKey: string,
                             first: string, second: string)
    requires GetOr(metrics, groupKey, Dict(map[])).Dict?
    ensures var d := GetOr(metrics, groupKey, Dict(map[])).d;
      Cascade(metrics, flat, groupKey, first, second)
        == Some(FirstTruthy([Get(metrics, flat), Get(d, first), Get(d, second)]))
  {
    var d := GetOr(metrics, groupKey, Dict(map[])).d;
    var cs := [Get(metrics, flat), Get(d, first), Get(d, second)];
    assert cs[1..] == [Get(d, first), Get(d, second)];
    assert cs[1..][1..] == [Get(d, second)];
    assert cs[1..][1..][1..] == [];
    assert FirstTruthy(cs[1..][1..]) == Or(Get(d, second), Num(0.0));
    assert FirstTruthy(cs[1..]) == (if Truthy(Get(d, first)) then Get(d, first) else Or(Get(d, second), Num(0.0)));
  }

  /** The metrics dictionary with the three parameters only in flattened form. */
  function FlatForm(ar: real, ma: real, vol: real): map<string, Value> {
    map["ar_coeff" := Num(ar), "ma_coeff" := Num(ma), "garch_volatility" := Num(vol)]
  }

  /** The same parameters only in nested form, under the first or (with
      `alternate`) the second nested name of each cascade. */
  function NestedForm(ar: real, ma: real, vol: real, alternate: bool): map<string, Value> {
    if alternate then
      map["arma" := Dict(map["ar_coeff" := Num(ar), "ma_coeff" := Num(ma)]),
          "garch" := Dict(map["garch_volatility" := Num(vol)])]
    else
      map["arma" := Dict(map["ar_coef" := Num(ar), "ma_coef" := Num(ma)]),
          "garch" := Dict(map["last_volatility" := Num(vol)])]
  }

  /** Fallback equivalence: nested-only input resolves to the same parameters as
      the equivalent flattened-only input. Zero values agree too, since a falsy
      value and an absent one both end in 0.0. */
  lemma NestedEqualsFlat(ar: real, ma: real, vol: real, alternate: bool)
    ensures Normalize(NestedForm(ar, ma, vol, alternate)) == Normalize(FlatForm(ar, ma, vol))
    ensures Normalize(FlatForm(ar, ma, vol)) == Some(Normalized(Num(ar), Num(ma), Num(vol)))
  {
    var flat := FlatForm(ar, ma, vol);
    assert ArCascade(flat) == Some(Num(ar));
    assert MaCascade(flat) == Some(Num(ma));
    assert VolatilityCascade(flat) == Some(Num(vol));
    var nested := NestedForm(ar, ma, vol, alternate);
    assert Get(nested, "ar_coeff") == Null && Get(nested, "ma_coeff") == Null;
    assert Get(nested, "garch_volatility") == Null;
    if alternate {
      var arma := map["ar_coeff" := Num(ar), "ma_coeff" := Num(ma)];
      assert GetOr(nested, "arma", Dict(map[])) == Dict(arma);
      assert Get(arma, "ar_coef") == Null && Get(arma, "ma_coef") == Null;
      assert Get(map["garch_volatility" := Num(vol)], "last_volatility") == Null;
    } else {
      var arma := map["ar_coef" := Num(ar), "ma_coef" := Num(ma)];
      assert GetOr(nested, "arma", Dict(map[])) == Dict(arma);
      assert Get(arma, "ar_coeff") == Null && Get(arma, "ma_coeff") == Null;
      assert Get(map["last_volatility" := Num(vol)], "garch_volatility") == Null;
    }
    assert ArCascade(nested) == Some(Num(ar));
    assert MaCascade(nested) == Some(Num(ma));
    assert VolatilityCascade(nested) == Some(Num(vol));
  }

  /** A flattened 0.0 counts as absent: a truthy nested value overrides it. */
  lemma ZeroFlatIsOverridden(metrics: map<string, Value>, v: Value)
    requires Get(metrics, "ar_coeff") == Num(0.0)
    requires "arma" in metrics && metrics["arma"].Dict? && Get(metrics["arma"].d, "ar_coef") == v
    requires Truthy(v)
    ensures ArCascade(metrics) == Some(v)
  {
  }

  // ---------------------------------------------------------------------------
  // The metrics table

  /** One row of `model_metrics`. */
  datatype Record = Record(timestamp: int, symbol: Symbol, arParam: Value, maParam: Value, volatility: Value)

  /** The positional row handed to the insert, for the columns
      `timestamp, symbol, ar_param, ma_param, volatility` in that order. */
  function Row(r: Record): seq<Value> {
    [Time(r.timestamp), Str(r.symbol), r.arParam, r.maParam, r.volatility]
  }

  /** `save_model_results(symbol, metrics)` at clock reading `now`, where
      `insertOk` says whether the client and insert succeed. Every failure is
      logged and swallowed: the store is then unchanged and nothing is raised.
      On success exactly one row is appended. */
  function SaveModelResults(store: seq<Record>, symbol: Symbol, metrics: map<string, Value>,
                            now: int, insertOk: bool): (store': seq<Record>)
    ensures |store'| == |store| || |store'| == |store| + 1
    ensures store'[..|store|] == store
    ensures |store'| == |store| + 1 <==> insertOk && Normalize(metrics).Some?
    ensures |store'| == |store| + 1 ==>
              var n := Normalize(metrics).value;
              var row := Row(store'[|store|]);
              row == [Time(now), Str(symbol), n.ar, n.ma, n.volatility]
  {
    match Normalize(metrics)
    case None => store
    case Some(n) =>
      if insertOk then store + [Record(now, symbol, n.ar, n.ma, n.volatility)] else store
  }

  // ---------------------------------------------------------------------------
  // Reading the latest metrics

  /** `ORDER BY timestamp DESC LIMIT 1` over a symbol's records: a record with
      the greatest timestamp, or `None` when the symbol has none. Among equal
      timestamps the later-appended record is chosen. */
  function LatestRecord(store: seq<Record>, symbol: Symbol): (r: Option<Record>)
    ensures r.None? <==> forall i :: 0 <= i < |store| ==> store[i].symbol != symbol
    ensures r.Some? ==>
              && r.value in store
              && r.value.symbol == symbol
              && forall i :: 0 <= i < |store| && store[i].symbol == symbol ==>
                   store[i].timestamp <= r.value.timestamp
  {
    if |store| == 0 then None
    else
      var last := store[|store| - 1];
      var earlier := LatestRecord(store[..|store| - 1], symbol);
      if last.symbol != symbol then earlier
      else if earlier.Some? && earlier.value.timestamp > last.timestamp then earlier
      else Some(last)
  }

  /** The selected row `(ar_param, ma_param, volatility, timestamp)`. */
  function Projection(r: Record): seq<Value> {
    [r.arParam, r.maParam, r.volatility, Time(r.timestamp)]
  }

  /** `result_rows` of the latest-metrics query: zero or one projected row. */
  function LatestRows(store: seq<Record>, symbol: Symbol): seq<seq<Value>> {
    match LatestRecord(store, symbol)
    case None => []
    case Some(r) => [Projection(r)]
  }

  /** The dictionary a stored record is reported as. */
  function MetricsOf(symbol: Symbol, r: Record): map<string, Value> {
    map["symbol" := Str(symbol), "ar_coeff" := r.arParam, "ma_coeff" := r.maParam,
        "garch_volatility" := r.volatility, "calculated_at" := Time(r.timestamp)]
  }

  /** `get_latest_metrics(symbol)`, where `queryOk` says whether the client and
      query succeed. No rows, or any failure, reads as `None`. */
  function GetLatestMetrics(store: seq<Record>, symbol: Symbol, queryOk: bool): (m: Option<map<string, Value>>)
    ensures m.None? <==> !queryOk || forall i :: 0 <= i < |store| ==> store[i].symbol != symbol
    ensures m.Some? ==>
              exists i :: 0 <= i < |store| && store[i].symbol == symbol
                && m.value == MetricsOf(symbol, store[i])
                && forall j :: 0 <= j < |store| && store[j].symbol == symbol ==>
                     store[j].timestamp <= store[i].timestamp
  {
    if !queryOk then None
    else
      var rows := LatestRows(store, symbol);
      if |rows| == 0 then None
      else
        var row := rows[0];
        Some(map["symbol" := Str(symbol), "ar_coeff" := row[0], "ma_coeff" := row[1],
                 "garch_volatility" := row[2], "calculated_at" := row[3]])
  }

  /** A found result is never an empty dictionary: it always carries the
      queried symbol and the four selected columns. */
  lemma LatestMetricsNonEmpty(store: seq<Record>, symbol: Symbol, queryOk: bool)
    requires GetLatestMetrics(store, symbol, queryOk).Some?
    ensures var m := GetLatestMetrics(store, symbol, queryOk).value;
      m.Keys == {"symbol", "ar_coeff", "ma_coeff", "garch_volatility", "calculated_at"}
      && m["symbol"] == Str(symbol)
  {
  }

  /** Round trip: a successful save whose clock reading is not older than the
      symbol's stored records is what the next read returns. */
  lemma {:induction false} SaveThenGetLatest(store: seq<Record>, symbol: Symbol, metrics: map<string, Value>, now: int)
    requires Normalize(metrics).Some?
    requires forall i :: 0 <= i < |store| && store[i].symbol == symbol ==> store[i].timestamp <= now
    ensures var n := Normalize(metrics).value;
      GetLatestMetrics(SaveModelResults(store, symbol, metrics, now, true), symbol, true)
        == Some(map["symbol" := Str(symbol), "ar_coeff" := n.ar, "ma_coeff" := n.ma,
                    "garch_volatility" := n.volatility, "calculated_at" := Time(now)])
  {
    var n := Normalize(metrics).value;
    var store' := SaveModelResults(store, symbol, metrics, now, true);
    assert store' == store + [Record(now, symbol, n.ar, n.ma, n.volatility)];
    assert store'[..|store'| - 1] == store;
    var earlier := LatestRecord(store, symbol);
    assert earlier.Some? ==> earlier.value.timestamp <= now by {
      if earlier.Some? {
        var i :| 0 <= i < |store| && store[i] == earlier.value;
      }
    }
    assert LatestRecord(store', symbol) == Some(Record(now, symbol, n.ar, n.ma, n.volatility));
  }

  /** Saving for one symbol leaves every other symbol's latest metrics unchanged. */
  lemma {:induction false} SaveIsolatesSymbols(store: seq<Record>, symbol: Symbol, other: Symbol,
                                               metrics: map<string, Value>, now: int, insertOk: bool,
                                               queryOk: bool)
    requires other != symbol
    ensures GetLatestMetrics(SaveModelResults(store, symbol, metrics, now, insertOk), other, queryOk)
         == GetLatestMetrics(store, other, queryOk)
  {
    var store' := SaveModelResults(store, symbol, metrics, now, insertOk);
    if |store'| == |store| + 1 {
      assert store'[..|store'| - 1] == store;
      assert LatestRecord(store', other) == LatestRecord(store, other);
    } else {
      assert store' == store'[..|store|];
    }
  }
}

=== FILE: financial_models.dfy ===
/** The trainer `train_and_extract_params` (financial_models.py): the return
    series length gate, the conversion of estimator exceptions into failure
    dictionaries, and the shaping of the fitted parameters into the fixed
    eight-key success dictionary. The log-return arithmetic and both
    estimators stay abstract: only the length of the return series and the
    parameter maps the estimators produce are modelled. */
module FinancialModels {
  import opened Values

  /** Fewest return observations the trainer accepts. */
  const MinReturns: nat := 10

  const NotEnoughMessage: string := "Not enough return observations to train models"

  /** The eight keys of a successful result. */
  const SuccessKeys: set<string> :=
    {"success", "ar_coeff", "ma_coeff", "const", "omega", "alpha", "beta", "garch_volatility"}

  /** The two keys of a failed result. */
  const FailureKeys: set<string> := {"error", "success"}

  /** Whether `100 * ln(cur / prev)` survives `dropna`. Under IEEE division and
      `np.log`, the value is NaN exactly when the ratio is negative, when it is
      `0/0`, or when a negative price follows a zero one (`-inf`); a positive
      price after a zero one gives `+inf` and a zero price gives `-inf`, and
      both are kept. */
  predicate ReturnDefined(prev: real, cur: real) {
    if prev == 0.0 then cur > 0.0 else prev * cur >= 0.0
  }

  /** Length of `returns` after `shift(1)` and `dropna`: the first price has no
      predecessor, every later one contributes when its return is defined. */
  function ReturnCount(prices: seq<real>): (n: nat)
    ensures |prices| <= 1 ==> n == 0
    ensures |prices| >= 1 ==> n <= |prices| - 1
  {
    if |prices| <= 1 then 0
    else
      ReturnCount(prices[..|prices| - 1])
      + (if ReturnDefined(prices[|prices| - 2], prices[|prices| - 1]) then 1 else 0)
  }

  /** With strictly positive prices no return is dropped, so the series has
      exactly one element fewer than the prices. */
  lemma {:induction false} PositivePricesKeepAllReturns(prices: seq<real>)
    requires |prices| >= 1
    requires forall i :: 0 <= i < |prices| ==> prices[i] > 0.0
    ensures ReturnCount(prices) == |prices| - 1
  {
    if |prices| > 1 {
      var init := prices[..|prices| - 1];
      assert forall i :: 0 <= i < |init| ==> init[i] == prices[i];
      PositivePricesKeepAllReturns(init);
      assert ReturnDefined(prices[|prices| - 2], prices[|prices| - 1]);
    }
  }

  /** What the ARMA(1,1) estimator did: fitted parameters by name, or the
      message of the exception it raised. */
  datatype ArmaFit = ArmaFitted(params: map<string, real>) | ArmaRaised(message: string)

  /** What the GARCH(1,1) estimator did: fitted parameters by name and the last
      conditional volatility, or the message of the exception it raised. */
  datatype GarchFit =
    | GarchFitted(params: map<string, real>, lastVolatility: real)
    | GarchRaised(message: string)

  /** Both estimator runs for one return series. */
  datatype Fits = Fits(arma: ArmaFit, garch: GarchFit)

  /** `{"error": message, "success": False}`. */
  function FailureResult(message: string): map<string, Value> {
    map["error" := Str(message), "success" := Bool(false)]
  }

  /** The flattened success dictionary built from the fitted parameters. */
  function SuccessResult(arma: map<string, real>, garch: map<string, real>, lastVolatility: real)
    : map<string, Value>
  {
    map[
      "success" := Bool(true),
      "ar_coeff" := Num(GetOr(arma, "ar.L1", 0.0)),
      "ma_coeff" := Num(GetOr(arma, "ma.L1", 0.0)),
      "const" := Num(GetOr(arma, "const", 0.0)),
      "omega" := Num(GetOr(garch, "omega", 0.0)),
      "alpha" := Num(GetOr(garch, "alpha[1]", GetOr(garch, "alpha", 0.0))),
      "beta" := Num(GetOr(garch, "beta[1]", GetOr(garch, "beta", 0.0))),
      "garch_volatility" := Num(lastVolatility)
    ]
  }

  /** `train_and_extract_params(prices)` given what the estimators do on the
      return series of `prices`. The ARMA fit runs first; the GARCH fit only
      runs when it did not raise. */
  function TrainAndExtractParams(prices: seq<real>, fits: Fits): (r: map<string, Value>)
    ensures ReportsSuccess(r) <==>
              ReturnCount(prices) >= MinReturns && fits.arma.ArmaFitted? && fits.garch.GarchFitted?
    ensures ReportsSuccess(r) ==>
              && r.Keys == SuccessKeys
              && r["success"] == Bool(true)
              && forall k :: k in r && k != "success" ==> r[k].Num?
    ensures !ReportsSuccess(r) ==>
              && r.Keys == FailureKeys
              && r["success"] == Bool(false)
              && r["error"].Str?
    ensures ReturnCount(prices) < MinReturns ==> r == FailureResult(NotEnoughMessage)
  {
    if ReturnCount(prices) < MinReturns then
      FailureResult(NotEnoughMessage)
    else
      match fits.arma
      case ArmaRaised(m) => FailureResult(m)
      case ArmaFitted(armaParams) =>
        match fits.garch
        case GarchRaised(m) => FailureResult(m)
        case GarchFitted(garchParams, v) => SuccessResult(armaParams, garchParams, v)
  }

  /** An exception from either estimator becomes `{"error": str(e), "success": False}`
      carrying the first raised message; it never escapes the trainer. */
  lemma EstimatorErrorBecomesFailure(prices: seq<real>, fits: Fits)
    requires ReturnCount(prices) >= MinReturns
    ensures fits.arma.ArmaRaised? ==>
              TrainAndExtractParams(prices, fits) == FailureResult(fits.arma.message)
    ensures fits.arma.ArmaFitted? && fits.garch.GarchRaised? ==>
              TrainAndExtractParams(prices, fits) == FailureResult(fits.garch.message)
  {
  }

  /** Each parameter of a successful result is the value under the first of
      its candidate names that the estimator reported, else zero. A present
      value is kept even when it is 0.0: `.get` defaults only cover absence. */
  lemma {:induction false} ParameterFallbacks(prices: seq<real>, armaParams: map<string, real>,
                                              garchParams: map<string, real>, v: real)
    requires ReturnCount(prices) >= MinReturns
    ensures var r := TrainAndExtractParams(prices, Fits(ArmaFitted(armaParams), GarchFitted(garchParams, v)));
      && r["ar_coeff"] == Num(FirstPresent(armaParams, ["ar.L1"], 0.0))
      && r["ma_coeff"] == Num(FirstPresent(armaParams, ["ma.L1"], 0.0))
      && r["const"] == Num(FirstPresent(armaParams, ["const"], 0.0))
      && r["omega"] == Num(FirstPresent(garchParams, ["omega"], 0.0))
      && r["alpha"] == Num(FirstPresent(garchParams, ["alpha[1]", "alpha"], 0.0))
      && r["beta"] == Num(FirstPresent(garchParams, ["beta[1]", "beta"], 0.0))
      && r["garch_volatility"] == Num(v)
  {
    assert ["alpha[1]", "alpha"][1..] == ["alpha"];
    assert FirstPresent(garchParams, ["alpha"], 0.0) == GetOr(garchParams, "alpha", 0.0);
    assert ["beta[1]", "beta"][1..] == ["beta"];
    assert FirstPresent(garchParams, ["beta"], 0.0) == GetOr(garchParams, "beta", 0.0);
  }

  /** A short price list can never train: at most ten prices give at most nine
      returns, below the trainer's minimum. */
  lemma AtMostTenPricesFail(prices: seq<real>, fits: Fits)
    requires |prices| <= MinReturns
    ensures TrainAndExtractParams(prices, fits) == FailureResult(NotEnoughMessage)
  {
  }

  /** With eleven or more positive prices and both estimators fitting, the
      trainer succeeds. */
  lemma PositivePricesTrain(prices: seq<real>, armaParams: map<string, real>,
                            garchParams: map<string, real>, v: real)
    requires |prices| > MinReturns
    requires forall i :: 0 <= i < |prices| ==> prices[i] > 0.0
    ensures ReportsSuccess(TrainAndExtractParams(prices, Fits(ArmaFitted(armaParams), GarchFitted(garchParams, v))))
  {
    PositivePricesKeepAllReturns(prices);
  }
}

=== FILE: training_service.dfy ===
/** The orchestration of training_service.py: the per-symbol
    fetch, gate, train and keep-or-drop step, the synchronous loop that
    returns tagged results, the background loop that saves them, and the
    guards of the three endpoints. The price source and the trainer are
    arbitrary functions, so every property below holds whatever they return;
    the last section instantiates them with the modelled trainer and store. */
module TrainingService {
  import opened Values
  import FinancialModels
  import DatabaseRetrieval

  /** The price source as the loops see it (failures already read as `[]`). */
  type Fetch = Symbol -> seq<real>

  /** The trainer as the loops see it. */
  type Train = seq<real> -> map<string, Value>

  /** Fewest prices the loops pass on to the trainer. */
  const MinPrices: nat := 10

  /** What happened to one symbol of a batch. */
  datatype Outcome =
    | SkippedNoData
    | SkippedInsufficientData(count: nat)
    | TrainingFailed(error: Value)
    | Trained(result: map<string, Value>)

  /** Whether the trainer was called for the symbol. */
  predicate ReachedTrainer(o: Outcome) {
    o.TrainingFailed? || o.Trained?
  }

  /** One iteration of either loop: fetch, the sufficiency gate, the trainer,
      and the `success` test. The synchronous loop merges the two gates into
      `not prices or len(prices) < 10`, which skips exactly the same lists. */
  function ProcessSymbol(symbol: Symbol, fetch: Fetch, train: Train): (o: Outcome)
    ensures o == SkippedNoData <==> |fetch(symbol)| == 0
    ensures o.SkippedInsufficientData? <==> 0 < |fetch(symbol)| < MinPrices
    ensures ReachedTrainer(o) <==> |fetch(symbol)| >= MinPrices
    ensures o.Trained? <==> |fetch(symbol)| >= MinPrices && ReportsSuccess(train(fetch(symbol)))
    ensures o.Trained? ==> o.result == train(fetch(symbol))
  {
    var prices := fetch(symbol);
    if |prices| == 0 then SkippedNoData
    else if |prices| < MinPrices then SkippedInsufficientData(|prices|)
    else
      var result := train(prices);
      if ReportsSuccess(result) then Trained(result) else TrainingFailed(Get(result, "error"))
  }

  /** The dictionary the synchronous loop appends: the trainer's result with
      `symbol` set to the symbol it was produced for. */
  function Tagged(result: map<string, Value>, symbol: Symbol): map<string, Value> {
    result["symbol" := Str(symbol)]
  }

  // ---------------------------------------------------------------------------
  // process_batch_logic_sync

  /** `process_batch_logic_sync(symbols)`: the results appended after each
      prefix of the input, so the last symbol decides the last append. */
  function SyncBatch(symbols: seq<Symbol>, fetch: Fetch, train: Train): (r: seq<map<string, Value>>)
    ensures |r| <= |symbols|
  {
    if |symbols| == 0 then []
    else
      var s := symbols[|symbols| - 1];
      var earlier := SyncBatch(symbols[..|symbols| - 1], fetch, train);
      match ProcessSymbol(s, fetch, train)
      case Trained(result) => earlier + [Tagged(result, s)]
      case _ => earlier
  }

  /** Positions of the input whose symbol trains successfully, ascending. */
  function SuccessIndices(symbols: seq<Symbol>, fetch: Fetch, train: Train): (idx: seq<nat>)
    ensures forall k :: 0 <= k < |idx| ==> idx[k] < |symbols|
    ensures forall k, l :: 0 <= k < l < |idx| ==> idx[k] < idx[l]
  {
    if |symbols| == 0 then []
    else
      var n := |symbols| - 1;
      var earlier := SuccessIndices(symbols[..n], fetch, train);
      if ProcessSymbol(symbols[n], fetch, train).Trained? then earlier + [n] else earlier
  }

  /** The recorded positions are exactly those whose symbol trains successfully. */
  lemma {:induction false} SuccessIndicesExact(symbols: seq<Symbol>, fetch: Fetch, train: Train)
    ensures var idx := SuccessIndices(symbols, fetch, train);
      forall i :: 0 <= i < |symbols| ==> (i in idx <==> ProcessSymbol(symbols[i], fetch, train).Trained?)
  {
    if |symbols| > 0 {
      var n := |symbols| - 1;
      var init := symbols[..n];
      SuccessIndicesExact(init, fetch, train);
      var idx, idx' := SuccessIndices(symbols, fetch, train), SuccessIndices(init, fetch, train);
      forall i | 0 <= i < |symbols|
        ensures i in idx <==> ProcessSymbol(symbols[i], fetch, train).Trained?
      {
        if i < n {
          assert init[i] == symbols[i];
          assert i != n;
        }
      }
    }
  }

  /** The synchronous result is the subsequence of successfully trained
      symbols, in input order, each result tagged with its own symbol. */
  lemma {:induction false} SyncBatchIsOrderedSubsequence(symbols: seq<Symbol>, fetch: Fetch, train: Train)
    ensures var r := SyncBatch(symbols, fetch, train);
      var idx := SuccessIndices(symbols, fetch, train);
      && |r| == |idx|
      && forall k :: 0 <= k < |r| ==>
           r[k] == Tagged(train(fetch(symbols[idx[k]])), symbols[idx[k]])
  {
    if |symbols| > 0 {
      var n := |symbols| - 1;
      var init := symbols[..n];
      SyncBatchIsOrderedSubsequence(init, fetch, train);
      var r, idx := SyncBatch(symbols, fetch, train), SuccessIndices(symbols, fetch, train);
      var r', idx' := SyncBatch(init, fetch, train), SuccessIndices(init, fetch, train);
      if ProcessSymbol(symbols[n], fetch, train).Trained? {
        assert r == r' + [Tagged(train(fetch(symbols[n])), symbols[n])];
        assert idx == idx' + [n];
      } else {
        assert r == r' && idx == idx';
      }
      forall k | 0 <= k < |r'|
        ensures r[k] == Tagged(train(fetch(symbols[idx[k]])), symbols[idx[k]])
      {
        assert r[k] == r'[k] && idx[k] == idx'[k];
        assert init[idx'[k]] == symbols[idx'[k]];
      }
    }
  }

  /** Every record of the synchronous result reports success, and its `symbol`
      is the input symbol it was produced for. */
  lemma {:induction false} SyncRecordsReportSuccess(symbols: seq<Symbol>, fetch: Fetch, train: Train)
    ensures var r := SyncBatch(symbols, fetch, train);
      var idx := SuccessIndices(symbols, fetch, train);
      && |r| == |idx|
      && forall k :: 0 <= k < |r| ==>
           && ReportsSuccess(train(fetch(symbols[idx[k]])))
           && ReportsSuccess(r[k])
           && Get(r[k], "symbol") == Str(symbols[idx[k]])
  {
    SyncBatchIsOrderedSubsequence(symbols, fetch, train);
    SuccessIndicesExact(symbols, fetch, train);
    var r := SyncBatch(symbols, fetch, train);
    var idx := SuccessIndices(symbols, fetch, train);
    forall k | 0 <= k < |r|
      ensures ReportsSuccess(train(fetch(symbols[idx[k]])))
      ensures ReportsSuccess(r[k]) && Get(r[k], "symbol") == Str(symbols[idx[k]])
    {
      assert idx[k] in idx;
      var result := train(fetch(symbols[idx[k]]));
      assert ProcessSymbol(symbols[idx[k]], fetch, train).Trained?;
      assert Get(r[k], "success") == Get(result, "success");
    }
  }

  /** Occurrences of records tagged with `s`. */
  function CountTagged(results: seq<map<string, Value>>, s: Symbol): nat {
    if |results| == 0 then 0
    else CountTagged(results[..|results| - 1], s) + (if Get(results[|results| - 1], "symbol") == Str(s) then 1 else 0)
  }

  lemma {:induction false} CountTaggedAppend(a: seq<map<string, Value>>, b: seq<map<string, Value>>, s: Symbol)
    ensures CountTagged(a + b, s) == CountTagged(a, s) + CountTagged(b, s)
  {
    if |b| > 0 {
      assert (a + b)[..|a + b| - 1] == a + b[..|b| - 1];
      CountTaggedAppend(a, b[..|b| - 1], s);
    } else {
      assert a + b == a;
    }
  }

  /** No de-duplication and no leakage: a symbol appears in the synchronous
      result once per occurrence in the input when it trains successfully,
      and never otherwise (no data, too few prices, or a failed training). */
  lemma {:induction false} SyncBatchCount(symbols: seq<Symbol>, fetch: Fetch, train: Train, s: Symbol)
    ensures CountTagged(SyncBatch(symbols, fetch, train), s)
         == if ProcessSymbol(s, fetch, train).Trained? then multiset(symbols)[s] else 0
  {
    if |symbols| > 0 {
      var n := |symbols| - 1;
      var last := symbols[n];
      assert symbols == symbols[..n] + [last];
      SyncBatchCount(symbols[..n], fetch, train, s);
      var earlier := SyncBatch(symbols[..n], fetch, train);
      match ProcessSymbol(last, fetch, train)
      case Trained(result) =>
        CountTaggedAppend(earlier, [Tagged(result, last)], s);
        assert [Tagged(result, last)][..0] == [];
      case _ =>
    }
  }

  /** A symbol with fewer than ten prices never reaches the trainer and is
      absent from the synchronous result. */
  lemma {:induction false} InsufficientDataExcluded(symbols: seq<Symbol>, fetch: Fetch, train: Train, s: Symbol)
    requires |fetch(s)| < MinPrices
    ensures !ReachedTrainer(ProcessSymbol(s, fetch, train))
    ensures CountTagged(SyncBatch(symbols, fetch, train), s) == 0
  {
    SyncBatchCount(symbols, fetch, train, s);
  }

  /** The batch never aborts: what a prefix yields is followed by what the rest
      yields, whatever happened to the symbols of the prefix. */
  lemma {:induction false} SyncBatchConcat(a: seq<Symbol>, b: seq<Symbol>, fetch: Fetch, train: Train)
    ensures SyncBatch(a + b, fetch, train) == SyncBatch(a, fetch, train) + SyncBatch(b, fetch, train)
  {
    if |b| == 0 {
      assert a + b == a;
    } else {
      var n := |b| - 1;
      assert (a + b)[..|a + b| - 1] == a + b[..n];
      assert (a + b)[|a + b| - 1] == b[n];
      SyncBatchConcat(a, b[..n], fetch, train);
    }
  }

  /** The synchronous loop as the source writes it: one pass over the input,
      appending each successful result tagged with its symbol. */
  method ProcessBatchSync(symbols: seq<Symbol>, fetch: Fetch, train: Train)
    returns (allMetrics: seq<map<string, Value>>)
    ensures allMetrics == SyncBatch(symbols, fetch, train)
  {
    allMetrics := [];
    var i := 0;
    while i < |symbols|
      invariant 0 <= i <= |symbols|
      invariant allMetrics == SyncBatch(symbols[..i], fetch, train)
    {
      var symbol := symbols[i];
      var prices := fetch(symbol);
      assert symbols[..i + 1][..i] == symbols[..i];
      if |prices| == 0 || |prices| < MinPrices {
        i := i + 1;
        continue;
      }
      var modelResult := train(prices);
      if ReportsSuccess(modelResult) {
        allMetrics := allMetrics + [Tagged(modelResult, symbol)];
      }
      i := i + 1;
    }
    assert symbols[..i] == symbols;
  }

  // ---------------------------------------------------------------------------
  // process_batch_logic

  /** One `save_model_results(symbol, metrics)` call made by the background loop. */
  datatype SaveCall = SaveCall(symbol: Symbol, metrics: map<string, Value>)

  /** `process_batch_logic(symbols)`: the sequence of save calls it makes. */
  function BackgroundBatch(symbols: seq<Symbol>, fetch: Fetch, train: Train): (calls: seq<SaveCall>)
    ensures |calls| <= |symbols|
  {
    if |symbols| == 0 then []
    else
      var s := symbols[|symbols| - 1];
      var earlier := BackgroundBatch(symbols[..|symbols| - 1], fetch, train);
      match ProcessSymbol(s, fetch, train)
      case Trained(result) => earlier + [SaveCall(s, result)]
      case _ => earlier
  }

  /** The background loop saves exactly the successfully trained symbols, once
      per occurrence and in input order, each with its own trainer result. */
  lemma {:induction false} BackgroundSavesSuccesses(symbols: seq<Symbol>, fetch: Fetch, train: Train)
    ensures var calls := BackgroundBatch(symbols, fetch, train);
      var idx := SuccessIndices(symbols, fetch, train);
      && |calls| == |idx|
      && forall k :: 0 <= k < |calls| ==>
           calls[k] == SaveCall(symbols[idx[k]], train(fetch(symbols[idx[k]])))
  {
    if |symbols| > 0 {
      var n := |symbols| - 1;
      BackgroundSavesSuccesses(symbols[..n], fetch, train);
      var idx' := SuccessIndices(symbols[..n], fetch, train);
      assert forall k :: 0 <= k < |idx'| ==> symbols[..n][idx'[k]] == symbols[idx'[k]];
    }
  }

  /** Both loops make the same per-symbol decisions: the synchronous result is
      the background loop's save calls with the symbol written into the metrics. */
  lemma {:induction false} SyncMatchesBackground(symbols: seq<Symbol>, fetch: Fetch, train: Train)
    ensures var calls := BackgroundBatch(symbols, fetch, train);
      var r := SyncBatch(symbols, fetch, train);
      |r| == |calls| && forall k :: 0 <= k < |r| ==> r[k] == Tagged(calls[k].metrics, calls[k].symbol)
  {
    if |symbols| > 0 {
      SyncMatchesBackground(symbols[..|symbols| - 1], fetch, train);
    }
  }

  /** Whether a save call appends a row: its cascades do not raise and its
      insert succeeds. */
  predicate Lands(call: SaveCall, inserted: bool) {
    inserted && !DatabaseRetrieval.CascadesRaise(call.metrics)
  }

  /** The row a landing save call appends at clock reading `now`. */
  function CallRecord(call: SaveCall, now: int): DatabaseRetrieval.Record
    requires !DatabaseRetrieval.CascadesRaise(call.metrics)
  {
    var n := DatabaseRetrieval.Normalize(call.metrics).value;
    DatabaseRetrieval.Record(now, call.symbol, n.ar, n.ma, n.volatility)
  }

  /** Positions of the save calls that append a row, in call order. */
  function LandedIndices(calls: seq<SaveCall>, insertOk: nat -> bool): (idx: seq<nat>)
    ensures forall j :: 0 <= j < |idx| ==> idx[j] < |calls| && Lands(calls[idx[j]], insertOk(idx[j]))
    ensures forall j, l :: 0 <= j < l < |idx| ==> idx[j] < idx[l]
  {
    if |calls| == 0 then []
    else
      var n := |calls| - 1;
      var init := calls[..n];
      var earlier := LandedIndices(init, insertOk);
      assert forall j :: 0 <= j < |earlier| ==> init[earlier[j]] == calls[earlier[j]];
      if Lands(calls[n], insertOk(n)) then earlier + [n] else earlier
  }

  /** No landing call is missed: a position is recorded exactly when its call lands. */
  lemma {:induction false} LandedIndicesExact(calls: seq<SaveCall>, insertOk: nat -> bool)
    ensures var idx := LandedIndices(calls, insertOk);
      forall k :: 0 <= k < |calls| ==> (k in idx <==> Lands(calls[k], insertOk(k)))
  {
    if |calls| > 0 {
      var n := |calls| - 1;
      var init := calls[..n];
      LandedIndicesExact(init, insertOk);
      var idx, idx' := LandedIndices(calls, insertOk), LandedIndices(init, insertOk);
      forall k | 0 <= k < |calls|
        ensures k in idx <==> Lands(calls[k], insertOk(k))
      {
        if k < n {
          assert init[k] == calls[k];
          assert k != n;
        }
      }
    }
  }

  /** The store after the save calls, the k-th one at clock reading `clock(k)`
      and with insert outcome `insertOk(k)`: the old rows, then one row per
      landing call, in call order. */
  function PersistAll(store: seq<DatabaseRetrieval.Record>, calls: seq<SaveCall>,
                      clock: nat -> int, insertOk: nat -> bool): (store': seq<DatabaseRetrieval.Record>)
    ensures |store| <= |store'| <= |store| + |calls|
    ensures store'[..|store|] == store
    ensures var landed := LandedIndices(calls, insertOk);
      && |store'| == |store| + |landed|
      && forall j :: 0 <= j < |landed| ==>
           store'[|store| + j] == CallRecord(calls[landed[j]], clock(landed[j]))
  {
    if |calls| == 0 then store
    else
      var n := |calls| - 1;
      var earlier := PersistAll(store, calls[..n], clock, insertOk);
      assert forall k :: 0 <= k < n ==> calls[..n][k] == calls[k];
      DatabaseRetrieval.SaveModelResults(earlier, calls[n].symbol, calls[n].metrics, clock(n), insertOk(n))
  }

  /** When every save call lands, each appends its own row: row `|store| + k`
      is call `k`'s record at clock reading `clock(k)`. */
  lemma {:induction false} EveryCallLands(store: seq<DatabaseRetrieval.Record>, calls: seq<SaveCall>,
                                          clock: nat -> int, insertOk: nat -> bool)
    requires forall k :: 0 <= k < |calls| ==> insertOk(k) && !DatabaseRetrieval.CascadesRaise(calls[k].metrics)
    ensures var store' := PersistAll(store, calls, clock, insertOk);
      && |store'| == |store| + |calls|
      && forall k :: 0 <= k < |calls| ==> store'[|store| + k] == CallRecord(calls[k], clock(k))
  {
    AllLandedIndices(calls, insertOk);
    var store' := PersistAll(store, calls, clock, insertOk);
    var landed := LandedIndices(calls, insertOk);
    forall k | 0 <= k < |calls|
      ensures store'[|store| + k] == CallRecord(calls[k], clock(k))
    {
      assert landed[k] == k;
    }
  }

  /** With every call landing, the landing positions are all positions. */
  lemma {:induction false} AllLandedIndices(calls: seq<SaveCall>, insertOk: nat -> bool)
    requires forall k :: 0 <= k < |calls| ==> Lands(calls[k], insertOk(k))
    ensures var idx := LandedIndices(calls, insertOk);
      |idx| == |calls| && forall k :: 0 <= k < |calls| ==> idx[k] == k
  {
    if |calls| > 0 {
      var n := |calls| - 1;
      var init := calls[..n];
      forall k | 0 <= k < |init|
        ensures Lands(init[k], insertOk(k))
      {
        assert init[k] == calls[k];
      }
      AllLandedIndices(init, insertOk);
      assert Lands(calls[n], insertOk(n));
      assert LandedIndices(calls, insertOk) == LandedIndices(init, insertOk) + [n];
    }
  }

  // ---------------------------------------------------------------------------
  // Endpoints

  const NoSymbolsDetail: string := "No symbols provided"

  /** What an endpoint answers. */
  datatype Response =
    | HttpError(statusCode: nat, detail: string)
    | SyncComplete(status: string, results: seq<map<string, Value>>)
    | BatchQueued(status: string, queued: nat, mode: string)
    | ModelResults(status: string, data: map<string, Value>)

  /** `POST /train_sync`: an empty list is a client error before any processing;
      otherwise the whole batch runs and its results are returned. */
  function TriggerTrainingSync(symbols: seq<Symbol>, fetch: Fetch, train: Train): (r: Response)
    ensures |symbols| == 0 <==> r == HttpError(400, NoSymbolsDetail)
    ensures |symbols| > 0 ==> r.SyncComplete? && r.status == "Processing complete"
    ensures r.SyncComplete? ==> r.results == SyncBatch(symbols, fetch, train)
  {
    if |symbols| == 0 then HttpError(400, NoSymbolsDetail)
    else SyncComplete("Processing complete", SyncBatch(symbols, fetch, train))
  }

  /** An answer plus the batch scheduled to run after it, if any. */
  datatype Dispatch = Dispatch(response: Response, scheduled: Option<seq<Symbol>>)

  /** `POST /train_batch`: an empty list is a client error and nothing is
      scheduled; otherwise the whole list is scheduled as one background task
      and the answer reports how many symbols were queued. */
  function TriggerTraining(symbols: seq<Symbol>): (d: Dispatch)
    ensures |symbols| == 0 <==> d.scheduled.None?
    ensures |symbols| == 0 ==> d.response == HttpError(400, NoSymbolsDetail)
    ensures |symbols| > 0 ==>
              && d.scheduled == Some(symbols)
              && d.response.BatchQueued?
              && d.response.queued == |symbols|
  {
    if |symbols| == 0 then Dispatch(HttpError(400, NoSymbolsDetail), None)
    else Dispatch(BatchQueued("Batch processing started", |symbols|, "Pull Architecture"), Some(symbols))
  }

  /** `GET /results/{symbol}`: 404 when the lookup yields nothing (`None` or an empty dict),
      otherwise the data wrapped with status "success". */
  function GetModelResults(store: seq<DatabaseRetrieval.Record>, symbol: Symbol, queryOk: bool): (r: Response)
    ensures r.HttpError? <==> DatabaseRetrieval.GetLatestMetrics(store, symbol, queryOk).None?
    ensures r.HttpError? ==> r == HttpError(404, "No model data found for " + symbol + ".")
    ensures DatabaseRetrieval.GetLatestMetrics(store, symbol, queryOk).Some? ==>
              r == ModelResults("success", DatabaseRetrieval.GetLatestMetrics(store, symbol, queryOk).value)
  {
    var data := DatabaseRetrieval.GetLatestMetrics(store, symbol, queryOk);
    if data.None? || !Truthy(Dict(data.value)) then
      HttpError(404, "No model data found for " + symbol + ".")
    else
      ModelResults("success", data.value)
  }

  // ---------------------------------------------------------------------------
  // The loops with the modelled collaborators

  /** The price source of the service: the stored price query, failures collapsed. */
  function ServiceFetch(query: DatabaseRetrieval.PriceQuery): Fetch {
    s => DatabaseRetrieval.FetchPriceHistory(query, s)
  }

  /** The trainer of the service, given what the estimators do for each price list. */
  function ServiceTrain(fits: seq<real> -> FinancialModels.Fits): Train {
    prices => FinancialModels.TrainAndExtractParams(prices, fits(prices))
  }

  /** A failing price query is indistinguishable from a symbol without data:
      the symbol is skipped as having none. */
  lemma FailedFetchIsNoData(query: DatabaseRetrieval.PriceQuery, train: Train, s: Symbol)
    requires query(s).None?
    ensures ProcessSymbol(s, ServiceFetch(query), train) == SkippedNoData
  {
  }

  /** Exactly ten prices pass the loops' gate but give only nine returns, so
      such a symbol reaches the trainer, always fails, and is omitted. */
  lemma {:induction false} TenPricesAlwaysOmitted(symbols: seq<Symbol>, fetch: Fetch, fits: seq<real> -> FinancialModels.Fits, s: Symbol)
    requires |fetch(s)| == MinPrices
    ensures ReachedTrainer(ProcessSymbol(s, fetch, ServiceTrain(fits)))
    ensures ProcessSymbol(s, fetch, ServiceTrain(fits))
         == TrainingFailed(Str(FinancialModels.NotEnoughMessage))
    ensures CountTagged(SyncBatch(symbols, fetch, ServiceTrain(fits)), s) == 0
  {
    FinancialModels.AtMostTenPricesFail(fetch(s), fits(fetch(s)));
    SyncBatchCount(symbols, fetch, ServiceTrain(fits), s);
  }

  /** Every result the synchronous endpoint returns from the real trainer is
      the trainer's eight-key success dictionary plus its symbol. */
  lemma {:induction false} SyncResultsShape(symbols: seq<Symbol>, fetch: Fetch, fits: seq<real> -> FinancialModels.Fits)
    ensures forall r :: r in SyncBatch(symbols, fetch, ServiceTrain(fits)) ==>
              && r.Keys == FinancialModels.SuccessKeys + {"symbol"}
              && r["success"] == Bool(true)
  {
    var train := ServiceTrain(fits);
    SyncBatchIsOrderedSubsequence(symbols, fetch, train);
    SyncRecordsReportSuccess(symbols, fetch, train);
    var res := SyncBatch(symbols, fetch, train);
    var idx := SuccessIndices(symbols, fetch, train);
    forall r | r in res
      ensures r.Keys == FinancialModels.SuccessKeys + {"symbol"} && r["success"] == Bool(true)
    {
      var k :| 0 <= k < |res| && res[k] == r;
      var prices := fetch(symbols[idx[k]]);
      var m := FinancialModels.TrainAndExtractParams(prices, fits(prices));
      assert train(prices) == m;
      assert ReportsSuccess(m);
      assert r == Tagged(m, symbols[idx[k]]);
    }
  }

  /** The background loop persists the trainer's flattened values unchanged:
      its success dictionary has no nested groups, so each cascade yields the
      flattened value, and a 0.0 falls through to the 0.0 default. */
  lemma TrainedResultNormalizes(prices: seq<real>, fits: FinancialModels.Fits)
    requires ReportsSuccess(FinancialModels.TrainAndExtractParams(prices, fits))
    ensures var m := FinancialModels.TrainAndExtractParams(prices, fits);
      DatabaseRetrieval.Normalize(m)
        == Some(DatabaseRetrieval.Normalized(m["ar_coeff"], m["ma_coeff"], m["garch_volatility"]))
  {
    var m := FinancialModels.TrainAndExtractParams(prices, fits);
    assert "arma" !in m && "garch" !in m;
  }

  /** A background run with the service's trainer, every insert succeeding,
      stores one row per successfully trained symbol, in input order, holding
      the trainer's flattened `ar_coeff`, `ma_coeff` and `garch_volatility`
      unchanged, stamped with the clock reading of its save. */
  lemma {:induction false} BackgroundRunStoresTrainedParams(
    store: seq<DatabaseRetrieval.Record>, symbols: seq<Symbol>, fetch: Fetch,
    fits: seq<real> -> FinancialModels.Fits, clock: nat -> int, insertOk: nat -> bool)
    requires forall k :: 0 <= k < |symbols| ==> insertOk(k)
    ensures var train := ServiceTrain(fits);
      var idx := SuccessIndices(symbols, fetch, train);
      var store' := PersistAll(store, BackgroundBatch(symbols, fetch, train), clock, insertOk);
      && |store'| == |store| + |idx|
      && forall k :: 0 <= k < |idx| ==>
           var m := train(fetch(symbols[idx[k]]));
           store'[|store| + k]
             == DatabaseRetrieval.Record(clock(k), symbols[idx[k]],
                                         Get(m, "ar_coeff"), Get(m, "ma_coeff"), Get(m, "garch_volatility"))
  {
    var train := ServiceTrain(fits);
    var idx := SuccessIndices(symbols, fetch, train);
    var calls := BackgroundBatch(symbols, fetch, train);
    BackgroundSavesSuccesses(symbols, fetch, train);
    forall k | 0 <= k < |calls|
      ensures insertOk(k)
      ensures DatabaseRetrieval.Normalize(calls[k].metrics)
           == Some(DatabaseRetrieval.Normalized(Get(calls[k].metrics, "ar_coeff"), Get(calls[k].metrics, "ma_coeff"),
                                                Get(calls[k].metrics, "garch_volatility")))
    {
      assert idx[k] < |symbols|;
      var prices := fetch(symbols[idx[k]]);
      assert ProcessSymbol(symbols[idx[k]], fetch, train).Trained? by {
        SuccessIndicesExact(symbols, fetch, train);
        assert idx[k] in idx;
      }
      assert train(prices) == FinancialModels.TrainAndExtractParams(prices, fits(prices));
      TrainedResultNormalizes(prices, fits(prices));
    }
    EveryCallLands(store, calls, clock, insertOk);
  }
}

=== FILE: values.dfy ===
/** Python values as they flow through the training service: the dictionaries
    the trainer returns, the metric dictionaries handed to the store, and the
    rows read back from it. Python's dynamic typing is kept explicit so that
    truthiness (`or`) and `dict.get` defaults can be stated exactly. */
module Values {

  datatype Option<+T> = None | Some(value: T)

  /** A financial symbol: an opaque string compared only for equality. */
  type Symbol = string

  /** A Python value. `Time` stands for a `datetime`, its instant an ordered integer. */
  datatype Value =
    | Null
    | Bool(b: bool)
    | Num(x: real)
    | Str(s: string)
    | Time(t: int)
    | Dict(d: map<string, Value>)

  /** Python truthiness: `None`, `False`, zero, `""` and `{}` are falsy; a `datetime` is always truthy. */
  predicate Truthy(v: Value) {
    match v
    case Null => false
    case Bool(b) => b
    case Num(x) => x != 0.0
    case Str(s) => |s| > 0
    case Time(_) => true
    case Dict(d) => |d| > 0
  }

  /** Python `a or b`: the left operand when it is truthy, otherwise the right one. */
  function Or(a: Value, b: Value): Value {
    if Truthy(a) then a else b
  }

  /** `d.get(key)`: the stored value, or `None` when the key is absent. */
  function Get(d: map<string, Value>, key: string): Value {
    if key in d then d[key] else Null
  }

  /** `d.get(key, default)`. */
  function GetOr<V>(d: map<string, V>, key: string, default: V): V {
    if key in d then d[key] else default
  }

  /** Reference reading of a chain `v0 or v1 or ... or 0.0`: the first truthy
      candidate, or `0.0` when there is none. */
  function FirstTruthy(candidates: seq<Value>): Value {
    if |candidates| == 0 then Num(0.0)
    else if Truthy(candidates[0]) then candidates[0]
    else FirstTruthy(candidates[1..])
  }

  /** Reference reading of nested `d.get(k0, d.get(k1, ... default))`: the value
      under the first key that is present, falsy or not, else the default. */
  function FirstPresent<V>(d: map<string, V>, keys: seq<string>, default: V): V {
    if |keys| == 0 then default
    else if keys[0] in d then d[keys[0]]
    else FirstPresent(d, keys[1..], default)
  }

  /** `result.get("success")` read as a condition, as the batch loops do. */
  predicate ReportsSuccess(result: map<string, Value>) {
    Truthy(Get(result, "success"))
  }
}
